=== FILE: README.md ===
# Search widget and navigation sidebar of a static book site, in Dafny

The site is a statically generated book: pages live at the root and
under `parts/part_X/chapter_Y/`. The only page directly in `parts/` and
in each `parts/part_X/` is `index.html`, requested by that name. Any other
page there, and a directory URL such as `/parts/part_ii/`, gets the
chapter pages' prefix `../../../`. Two browser scripts add behaviour to
every page:

- `search.js`, the search widget. It works out the page's *root path* (the
  `../` prefix back to the site root). The first time the panel opens it
  loads `search_index.json`, retrying on a later opening if that load fails.
  On every keystroke it lower-cases the query, blanks the results for
  queries under two characters, and otherwise keeps the first ten entries
  whose title or content contains the query. Each result gets a snippet of
  its content around the first match, with the matches highlighted by a
  regular expression built from the query.
- `sidebar.js`, the navigation sidebar. It works out the root path with one
  more override, fetches `sidebar_content.html` and injects it, and points
  each anchor that has a `data-path` at root path + that path. It then
  opens and closes the sidebar through three fields: the container's `open`
  class, the overlay's `active` class and the body's `overflow`.

The Dafny project has these modules:

- `Text` (`text.dfy`): the JavaScript string operations the scripts use.
  These are ASCII `toLowerCase`, `includes`, `indexOf`, `startsWith`,
  `endsWith` and `split`, plus `join`. Split and join are proved inverse
  to each other.
- `Paths` (`paths.dfy`): the two root-path resolvers. Each is a method that
  reassigns `rootPath` step by step, as the scripts do. Each is proved equal
  to `Up(depth)` ('../' repeated), where the depth is 0, 1, 2 or 3. The
  lemmas state where the two resolvers agree and where they differ. They also
  state that the sidebar's prefix matches the real nesting depth of every
  page of that layout (`InSiteLayout`), whether the site sits at the domain root or
  under a path prefix. `Resolve` resolves such a prefix and a file name
  against the page's directory, as section 5.2 of RFC 3986 does, so the
  lemmas can say which file a request reaches.
- `Search` (`search.dfy`): the filter, the top-ten cut, the snippet window,
  the literal highlighting and the rendered results as functions. The loader is
  the class `SearchWidget`, whose `isLoaded` flag and index change only on a
  successful load, and whose input handler keeps the old results when
  building the highlighting pattern throws.
- `SearchExamples` (`search_examples.dfy`): the two-entry Alpha/Beta example
  worked through `Search.Respond`.
- `Sidebar` (`sidebar.dfy`): the link rewrite as a loop over an array of
  anchors, proved against the function `Rewritten`. The open/close
  transitions are a function on the three-field `Panel`. The class
  `SidebarController` holds the links and the panel.

Three behaviours of the code are easy to misread; the model keeps each as written:

- A query of one character, such as "b", blanks the results. It never
  finds an entry, because the handler returns before filtering when the
  query is shorter than two characters (search.js:50-53). `BetaExample`
  states this.
- The resolvers test `pathname.endsWith('index.html')` on the whole
  path, not on the last segment, so a page named `myindex.html` also takes
  the override.
- JavaScript treats an empty `content` or `data-path` as absent (falsy).
  So an entry with `content: ""` gets an empty snippet, not `"..."`, and an
  anchor with `data-path=""` is not rewritten. `HasContent` and
  `HasRawPath` model this.

The search widget's resolver has no `parts/index.html` override. At that
page it returns `../../../`, where the page is only one level deep.
`Paths.ResolversDivergeOnlyAtPartsIndex`,
`Paths.SearchRootPathMissesPartsIndex` and `Paths.PartsIndexExample` state
this divergence. When the site sits at the domain root, URL resolution
drops the two surplus `../` steps and the request still reaches
`/search_index.json`. Under a path prefix such as `/tboi/` it leaves the
site: `Paths.SearchRequestAtPartsIndex` states both cases, and
`Paths.PrefixedPartsIndexExample` works one through. The widget keeps the
code's resolver.

## Model

| member | source | states |
|---|---|---|
| `Text.Lower` | search.js:49 | ASCII lower-casing keeps the length and maps each character on its own, so positions in the lower-cased text are positions in the original |
| `Text.IndexOf` | search.js:68 | the result is -1 exactly when the pattern does not occur (`includes` is false); otherwise the pattern occurs there and at no earlier position |
| `Text.Split` | search.js:13 | splitting on '/' gives at least one segment, and no segment contains '/' |
| `Text.JoinSplit` | sidebar.js:15 | joining the segments with '/' gives back the path |
| `Text.SplitJoin` | sidebar.js:15 | splitting separator-free segments joined with '/' gives back the segments |
| `Text.JoinEndsWithLast` | sidebar.js:19 | a path ends with its last segment |
| `Paths.HasParentSegment` | search.js:16 | a path under `parts` that ends in `index.html` has at least two segments, so `pathSegments[length - 2]` exists |
| `Paths.SearchRootPath` | search.js:12-19 | the search resolver returns `Up(d)`: d is 0 when no segment is `parts`, 2 for an index page whose parent starts with `part_`, and 3 otherwise; the result is '', '../../' or '../../../' |
| `Paths.SidebarRootPath` | sidebar.js:14-27 | the sidebar resolver returns `Up(d)`: d is as for search, except 1 for an index page whose parent is `parts`; the result is one of the four prefixes |
| `Paths.OverridesExclusive` | sidebar.js:19-26 | the part-index and parts-index overrides never both fire, because `parts` does not start with `part_` |
| `Paths.ResolversDivergeOnlyAtPartsIndex` | sidebar.js:23-26 | the two resolvers differ exactly on a parts index page, where search climbs 3 levels and the sidebar 1 |
| `Paths.SidebarRootPathFitsLayout` | sidebar.js:8-27 | for a root page, the parts index, a part index or a chapter page, under any number of prefix directories not named `parts`, the sidebar's prefix climbs exactly the number of directories between the page and the site root |
| `Paths.SearchRootPathFitsLayoutElsewhere` | search.js:11-19 | the search prefix is also exactly right for every page in the site layout except the parts index |
| `Paths.SearchRootPathMissesPartsIndex` | search.js:14-18 | at the parts index, which is one level deep, the search prefix climbs 3 levels |
| `Paths.ResolveUp` | sidebar.js:30 | resolving `Up(n)` followed by a file name against a directory drops its last n directories, but never the domain root |
| `Paths.SidebarRequestReachesRoot` | sidebar.js:14-30 | on every page of the site layout, served under any prefix, a file requested behind the sidebar's prefix resolves to that file in the site's root directory |
| `Paths.SearchRequestAtPartsIndex` | search.js:12-19 | at the parts index, a file requested behind the search prefix resolves to the site's root directory exactly when the site is served at the domain root |
| `Paths.PrefixedPartsIndexExample` | search.js:29 | for `/tboi/parts/index.html` the sidebar fetches `/tboi/sidebar_content.html` and the search widget `/search_index.json` |
| `Paths.PartsIndexExample` | search.js:14-18 | `/parts/index.html` is in the layout; search climbs 3 levels there and the sidebar 1 |
| `Paths.ChapterPageExample` | sidebar.js:11-18 | `/parts/part_ii/chapter_03/section.html` climbs 3 levels in both resolvers |
| `Paths.PartIndexExample` | sidebar.js:19-22 | `/parts/part_ii/index.html` climbs 2 levels in both resolvers |
| `Paths.RootPageExample` | sidebar.js:14-17 | `/index.html` climbs no level in either resolver |
| `Paths.UpLiterals` | sidebar.js:18-25 | the literal prefixes '', '../', '../../' and '../../../' are `Up` of 0 to 3 |
| `Search.Matches` | search.js:56-57 | the filter's test: the lower-cased title, or the lower-cased content when it is truthy, includes the query; an empty query matches every entry, and a query matches only an entry whose title or truthy content is at least as long |
| `Search.Filter` | search.js:55-57 | the result has only matching entries (title or non-empty content contains the lower-cased query), drawn from the index, and every matching entry of the index is in it |
| `Search.FilterAppend` | search.js:55-57 | filtering a concatenation is the concatenation of the filtered parts, so the filter keeps index order |
| `Search.TopResults` | search.js:55-58 | the results are the first min(10, number of matches) matches, in index order |
| `Search.MatchIsKeptAtItsRank` | search.js:55-58 | a matching entry preceded by r < 10 matches is result number r: no qualifying entry among the first ten is skipped |
| `Search.ResultHasRank` | search.js:55-57 | match number j comes from an index position that matches and is preceded by exactly j matches |
| `Search.Snippet` | search.js:66-71 | no content gives an empty snippet; otherwise the snippet ends with '...' and holds at most 140 characters of content |
| `Search.SnippetAroundFirstMatch` | search.js:68-71 | for the first occurrence i of the query in the lower-cased content, the snippet is content[max(0, i-40) .. min(len, i+100)) + '...' |
| `Search.SnippetForTitleOnlyMatch` | search.js:68-71 | when the content does not contain the query (idx = -1), the snippet is content[0 .. min(len, 99)) + '...' |
| `Search.SnippetShowsMatch` | search.js:68-71 | when the content contains a query of at most 100 characters, the lower-cased snippet contains the query |
| `Search.WholeContentSnippet` | search.js:69-71 | a content whose first match is within 40 characters of its start, and which ends within 100 characters after that match, appears whole in the snippet |
| `Search.ToHits` | search.js:64-73 | each result becomes one hit: the entry, the link root path + url, and its highlighted snippet, in order |
| `Search.Respond` | search.js:48-73 | the results are blanked exactly for queries under 2 characters; "no results" exactly when nothing matches; otherwise 1 to 10 hits, which are the top results, each matching, linked from the root path, with its snippet highlighted |
| `Search.SingleHit` | search.js:58-64 | when the top results are one entry, the results area shows exactly that hit |
| `Search.ShortQueryIgnoresIndex` | search.js:49-53 | a query under 2 characters blanks the results whatever the index holds |
| `Search.Highlight` | search.js:73 | every marked piece is a case-insensitive occurrence of the query |
| `Search.HighlightKeepsText` | search.js:73 | highlighting changes no character of the snippet |
| `Search.HighlightMissesNothing` | search.js:73 | no unmarked character starts an occurrence of the query: every leftmost, non-overlapping match is marked |
| `Search.HitMarksMatches` | search.js:64-73 | every shown hit's text is its snippet, every marked piece matches the query and no plain character starts a match |
| `Search.SearchWidget.constructor` | search.js:8-19 | the widget starts with an empty index, not loaded, and the search resolver's root path |
| `Search.SearchWidget.Open` | search.js:27-35 | once loaded, opening fetches nothing and changes nothing; otherwise it fetches root path + 'search_index.json'; success stores the index and sets `isLoaded`; failure leaves both as they were and shows the load error, so the next opening retries |
| `Search.SearchWidget.Input` | search.js:48-73 | when the query has at least 2 characters, the pattern built from it is rejected and some top result has content, the results area keeps what it showed; otherwise it becomes `Respond` of the field's text over the current index; a query without metacharacters is never rejected; before a successful load any query of at least 2 characters shows no results |
| `SearchExamples.AlphaExample` | search.js:49-73 | on the index [Alpha, Beta], "alpha" yields Alpha alone, with the highlighted snippet whose text is "the alpha particle..." |
| `SearchExamples.AlphaMarks` | search.js:73 | in "the alpha particle..." the first four characters stay plain and the fifth piece marks "alpha" |
| `SearchExamples.BetaExample` | search.js:49-67 | on the same index, "b" blanks the results, and "be" yields Beta alone with an empty snippet |
| `Sidebar.Rewritten` | sidebar.js:47-52 | same number and order of anchors; an anchor with a non-empty `data-path` p gets href = root path + p; every other anchor is unchanged |
| `Sidebar.RewriteIdempotent` | sidebar.js:47-52 | rewriting the rewritten anchors changes nothing more |
| `Sidebar.RewriteLinks` | sidebar.js:46-52 | the loop leaves the array equal to `Rewritten` of its old contents |
| `Sidebar.AfterClick` | sidebar.js:55-66 | the toggle's handler opens the panel and `closeSidebar` (close button, overlay, any link) closes it; every outcome keeps the two classes and the scroll lock consistent |
| `Sidebar.OpenLocksScroll` | sidebar.js:55-59 | opening sets `open` and `active` and `overflow = 'hidden'`, from any state |
| `Sidebar.CloseTriggersAgree` | sidebar.js:62-74 | close button, overlay and any link give the same closed state, and closing is idempotent |
| `Sidebar.OpenThenCloseRestores` | sidebar.js:55-66 | open followed by any close returns all three fields to their closed values |
| `Sidebar.ClickKeepsConsistent` | sidebar.js:55-66 | after any click the container class, the overlay class and the scroll lock agree |
| `Sidebar.SidebarController.constructor` | sidebar.js:14-27 | the controller starts closed and unwired, with no links and the sidebar resolver's root path |
| `Sidebar.SidebarController.RequestFragment` | sidebar.js:30 | the fetch asks for root path + 'sidebar_content.html', which on every page of the site layout resolves to the fragment in the site's root directory |
| `Sidebar.SidebarController.Load` | sidebar.js:30-39 | an ok response's anchors become the links, rewritten, and the handlers are wired; a non-ok response or a network error changes nothing and runs no rewrite |
| `Sidebar.SidebarController.Click` | sidebar.js:55-74 | once wired, a click applies `AfterClick`; before wiring, or on a link that does not exist, nothing changes |

## Left out

- Element lookups, `addEventListener` wiring, `focus()` and the search
  panel's `style.display` (shown on opening, hidden by the backdrop) are
  left out. They are browser plumbing. Every handler is a method of the
  controller object instead.
- `fetch`, `response.json()`, `response.text()`, the promise chains and
  `console.error` are left out. Each fetch's outcome is a parameter (`FetchOutcome`,
  `FragmentResponse`), and parsing the fragment is replaced by the list of
  anchors it holds.
- The HTML of the results area is left out. The template literals, the
  `innerHTML` markup and the literal "No results found." and "Error loading
  search data." texts are not modelled. `ResultsArea` records which case is
  shown, and each hit records its entry, link and snippet.
- `Search.Highlight`: reads the query as literal text. The script builds a
  `RegExp` from the raw query without escaping, so a query with regular
  expression metacharacters that still forms a valid pattern (such as
  "a.b") marks different text in the script.
- `Search.SearchWidget.Input`: whether `new RegExp` accepts the query is a
  parameter. Regular expression syntax is not modelled: the model only
  demands that a query without metacharacters (`LiteralPattern`) is
  accepted, and does not itself decide that "c++" or "(a" is rejected.
- `Text.Lower`: ASCII only. Unicode case mappings that change a string's
  length are not modelled. Indices count characters, not UTF-16 code units.
- A second opening of the search panel before the first fetch completes
  issues a second fetch. This interleaving of the event loop is not modelled:
  each `Open` call completes its fetch before returning.
- A missing sidebar toggle or close button makes `setupSidebarInteractions`
  throw part-way. A missing search input makes the widget's setup throw.
  The model assumes all these elements exist.
- Index entries without a `title` make the filter throw. The model's
  `Entry` always has one.
- Following a link's `href` after a click is not modelled; only the close
  that the click also triggers is.
- `Sidebar.SidebarController.constructor`: the body's `overflow` starts at ''.
  A page that sets an inline `overflow` of its own is not modelled.

=== FILE: paths.dfy ===
/**
 * The root-path resolver: the relative prefix ('', '../', '../../' or
 * '../../../') that leads from the current page back to the site root,
 * computed from the page's URL path. Both scripts carry their own copy;
 * the search widget's copy (search.js) knows one override, the sidebar's
 * copy (sidebar.js) knows two.
 */
module Paths {
  import opened Text

  const Sep := '/'
  const PartsDir := "parts"
  const IndexPage := "index.html"
  const PartPrefix := "part_"
  const ChapterPrefix := "chapter_"

  /** The prefix that climbs `levels` directories: '../' repeated. */
  function Up(levels: nat): (r: string)
    ensures |r| == 3 * levels
  {
    if levels == 0 then "" else "../" + Up(levels - 1)
  }

  /** Some segment of the path is exactly `parts`. */
  predicate InParts(pathname: string)
  {
    PartsDir in Split(pathname, Sep)
  }

  /** A path under `parts` that ends in `index.html` has a second-to-last
      segment, so the scripts' `pathSegments[length - 2]` never falls off
      the front: a path without any '/' is one segment, and that segment
      would have to be both `parts` and end in `index.html`. */
  lemma {:induction false} HasParentSegment(pathname: string)
    ensures InParts(pathname) && EndsWith(pathname, IndexPage) ==> |Split(pathname, Sep)| >= 2
  {
    var segs := Split(pathname, Sep);
    if |segs| == 1 {
      JoinSplit(pathname, Sep);
      assert pathname == segs[0];
    }
  }

  /** The second-to-last path segment (the page's directory). */
  function ParentSegment(pathname: string): string
    requires InParts(pathname) && EndsWith(pathname, IndexPage)
  {
    HasParentSegment(pathname);
    var segs := Split(pathname, Sep);
    segs[|segs| - 2]
  }

  /** First override: an index page whose directory starts with `part_`. */
  predicate IsPartIndex(pathname: string)
  {
    InParts(pathname) && EndsWith(pathname, IndexPage) && StartsWith(ParentSegment(pathname), PartPrefix)
  }

  /** Second override (sidebar only): an index page whose directory is `parts`. */
  predicate IsPartsIndex(pathname: string)
  {
    InParts(pathname) && EndsWith(pathname, IndexPage) && ParentSegment(pathname) == PartsDir
  }

  /** Levels the search widget climbs: 0 outside `parts`, 2 at a part
      index, 3 everywhere else under `parts`. */
  function SearchDepth(pathname: string): nat
  {
    if !InParts(pathname) then 0
    else if IsPartIndex(pathname) then 2
    else 3
  }

  /** Levels the sidebar climbs: as the search widget, and 1 at the parts index. */
  function SidebarDepth(pathname: string): nat
  {
    if !InParts(pathname) then 0
    else if IsPartsIndex(pathname) then 1
    else if IsPartIndex(pathname) then 2
    else 3
  }

  /** The search widget's resolver, reassigning `rootPath` step by step. */
  method SearchRootPath(pathname: string) returns (rootPath: string)
    ensures rootPath == Up(SearchDepth(pathname))
    ensures rootPath in {"", "../../", "../../../"}
  {
    rootPath := "";
    var pathSegments := Split(pathname, Sep);
    HasParentSegment(pathname);
    if PartsDir in pathSegments {
      rootPath := "../../../";
      if EndsWith(pathname, IndexPage) && StartsWith(pathSegments[|pathSegments| - 2], PartPrefix) {
        rootPath := "../../";
      }
    }
  }

  /** The sidebar's resolver, with both overrides applied in order. */
  method SidebarRootPath(pathname: string) returns (rootPath: string)
    ensures rootPath == Up(SidebarDepth(pathname))
    ensures rootPath in {"", "../", "../../", "../../../"}
  {
    rootPath := "";
    var pathSegments := Split(pathname, Sep);
    HasParentSegment(pathname);
    if PartsDir in pathSegments {
      rootPath := "../../../";
      if EndsWith(pathname, IndexPage) && StartsWith(pathSegments[|pathSegments| - 2], PartPrefix) {
        rootPath := "../../";
      }
      if EndsWith(pathname, IndexPage) && pathSegments[|pathSegments| - 2] == PartsDir {
        rootPath := "../";
      }
    }
  }

  /** The two overrides never both fire: `parts` does not start with `part_`. */
  lemma OverridesExclusive(pathname: string)
    ensures !(IsPartIndex(pathname) && IsPartsIndex(pathname))
  {
    assert !StartsWith(PartsDir, PartPrefix) by { assert PartsDir[..5][4] != PartPrefix[4]; }
  }

  /** The two resolvers agree on every path except a parts index, where the
      search widget climbs three levels and the sidebar one. */
  lemma ResolversDivergeOnlyAtPartsIndex(pathname: string)
    ensures SearchDepth(pathname) != SidebarDepth(pathname) <==> IsPartsIndex(pathname)
    ensures IsPartsIndex(pathname) ==> SearchDepth(pathname) == 3 && SidebarDepth(pathname) == 1
  {
    OverridesExclusive(pathname);
  }

  /** The page layout the site generator produces, as split on '/': the
      site is served under `base` directories (none of them `parts`; 0 when
      it sits at the domain root), and below them come pages at the site
      root, the parts index `parts/index.html`, part indexes
      `parts/part_X/index.html` and chapter pages
      `parts/part_X/chapter_Y/page.html`. */
  predicate InSiteLayout(segs: seq<string>, base: nat)
  {
    |segs| >= base + 2 && segs[0] == "" &&
    (forall k :: 1 <= k <= base ==> segs[k] != PartsDir) &&
    var rest := segs[base + 1..];
    ( (|rest| == 1 && rest[0] != PartsDir)
    || (|rest| == 2 && rest[0] == PartsDir && rest[1] == IndexPage)
    || (|rest| == 3 && rest[0] == PartsDir && StartsWith(rest[1], PartPrefix) && rest[2] == IndexPage)
    || (|rest| == 4 && rest[0] == PartsDir && StartsWith(rest[1], PartPrefix) && StartsWith(rest[2], ChapterPrefix)))
  }

  /** The number of directories between a page and the site root. */
  function LayoutDepth(segs: seq<string>, base: nat): nat
    requires InSiteLayout(segs, base)
  {
    |segs| - 2 - base
  }

  lemma ChapterIsNoPart(dir: string)
    requires StartsWith(dir, ChapterPrefix)
    ensures !StartsWith(dir, PartPrefix) && dir != PartsDir
  {
    assert dir[0] == ChapterPrefix[0];
  }

  /** Under the site layout, the sidebar's prefix climbs exactly as many
      directories as separate the page from the site root. */
  lemma {:induction false} SidebarRootPathFitsLayout(pathname: string, base: nat)
    requires InSiteLayout(Split(pathname, Sep), base)
    ensures SidebarDepth(pathname) == LayoutDepth(Split(pathname, Sep), base)
  {
    var segs := Split(pathname, Sep);
    var rest := segs[base + 1..];
    JoinSplit(pathname, Sep);
    JoinEndsWithLast(segs, Sep);
    OverridesExclusive(pathname);
    if |rest| == 1 {
      forall k | 0 <= k < |segs| ensures segs[k] != PartsDir {
        if k == base + 1 { assert segs[k] == rest[0]; }
      }
      assert !InParts(pathname);
    } else {
      assert segs[base + 1] == rest[0] == PartsDir;
      assert InParts(pathname);
      if |rest| == 2 {
        assert segs[|segs| - 2] == rest[0];
        assert IsPartsIndex(pathname);
      } else if |rest| == 3 {
        assert segs[|segs| - 2] == rest[1];
        assert segs[|segs| - 1] == rest[2];
        assert rest[1] != PartsDir by { assert rest[1][..5] == PartPrefix; }
        assert IsPartIndex(pathname);
      } else {
        assert segs[|segs| - 2] == rest[2];
        ChapterIsNoPart(rest[2]);
      }
    }
  }

  /** Under the site layout, the search widget's prefix is right everywhere
      except at the parts index. */
  lemma {:induction false} SearchRootPathFitsLayoutElsewhere(pathname: string, base: nat)
    requires InSiteLayout(Split(pathname, Sep), base)
    requires !IsPartsIndex(pathname)
    ensures SearchDepth(pathname) == LayoutDepth(Split(pathname, Sep), base)
  {
    SidebarRootPathFitsLayout(pathname, base);
    ResolversDivergeOnlyAtPartsIndex(pathname);
  }

  /** At the parts index, one directory below the site root, the search
      widget's prefix climbs three. */
  lemma {:induction false} SearchRootPathMissesPartsIndex(pathname: string, base: nat)
    requires InSiteLayout(Split(pathname, Sep), base)
    requires |Split(pathname, Sep)| == base + 3
    ensures LayoutDepth(Split(pathname, Sep), base) == 1
    ensures SearchDepth(pathname) == 3
  {
    SidebarRootPathFitsLayout(pathname, base);
    ResolversDivergeOnlyAtPartsIndex(pathname);
  }

  // Resolving a root-relative request

  /** The directory of a page: its segments without the file name. */
  function PageDir(segs: seq<string>): (dir: seq<string>)
    requires |segs| >= 2
    ensures |dir| == |segs| - 1 && dir == segs[..|segs| - 1]
  {
    segs[..|segs| - 1]
  }

  /** Resolving a relative reference made of `../` steps and a file name
      against a page directory, by the merge and dot-segment removal of
      section 5.2 of RFC 3986: each `../` drops the last directory, and a
      `../` at the domain root drops nothing. */
  function Resolve(dir: seq<string>, rel: string): string
    requires |dir| >= 1
    decreases |rel|
  {
    if StartsWith(rel, "../") then Resolve(if |dir| > 1 then dir[..|dir| - 1] else dir, rel[3..])
    else Join(dir + [rel], Sep)
  }

  /** `levels` steps up from a directory of `n` segments keep `n - levels`
      of them, and never fewer than the domain root. */
  function Kept(n: nat, levels: nat): nat
  {
    if levels < n then n - levels else 1
  }

  /** A prefix `Up(levels)` in front of a file name climbs `levels`
      directories, stopping at the domain root. */
  lemma {:induction false} ResolveUp(dir: seq<string>, levels: nat, file: string)
    requires |dir| >= 1
    requires !StartsWith(file, "../")
    ensures Kept(|dir|, levels) <= |dir|
    ensures Resolve(dir, Up(levels) + file) == Join(dir[..Kept(|dir|, levels)] + [file], Sep)
    decreases levels
  {
    if levels > 0 {
      var rel := Up(levels) + file;
      assert rel == "../" + (Up(levels - 1) + file);
      assert StartsWith(rel, "../") && rel[3..] == Up(levels - 1) + file;
      var up := if |dir| > 1 then dir[..|dir| - 1] else dir;
      ResolveUp(up, levels - 1, file);
      assert up[..Kept(|up|, levels - 1)] == dir[..Kept(|dir|, levels)];
    } else {
      assert Up(0) + file == file;
      assert dir[..|dir|] == dir;
    }
  }

  /** Under the site layout, a request for `file` behind the sidebar's
      prefix reaches that file in the site's root directory, wherever the
      site is served. */
  lemma {:induction false} SidebarRequestReachesRoot(pathname: string, base: nat, file: string)
    requires InSiteLayout(Split(pathname, Sep), base)
    requires !StartsWith(file, "../")
    ensures Resolve(PageDir(Split(pathname, Sep)), Up(SidebarDepth(pathname)) + file)
         == Join(Split(pathname, Sep)[..base + 1] + [file], Sep)
  {
    var segs := Split(pathname, Sep);
    SidebarRootPathFitsLayout(pathname, base);
    ResolveUp(PageDir(segs), SidebarDepth(pathname), file);
    assert PageDir(segs)[..base + 1] == segs[..base + 1];
  }

  /** Two joins of separator-free pieces that differ in number differ. */
  lemma JoinsDiffer(a: seq<string>, b: seq<string>)
    requires |a| >= 1 && |b| >= 1 && |a| != |b|
    requires forall k :: 0 <= k < |a| ==> Sep !in a[k]
    requires forall k :: 0 <= k < |b| ==> Sep !in b[k]
    ensures Join(a, Sep) != Join(b, Sep)
  {
    SplitJoin(a, Sep);
    SplitJoin(b, Sep);
  }

  /** At the parts index, the search widget's request for `file` reaches
      the site's root directory exactly when the site sits at the domain
      root, where the surplus `../` steps are dropped; under a prefix of
      `base` directories it leaves the site. */
  lemma {:induction false} SearchRequestAtPartsIndex(pathname: string, base: nat, file: string)
    requires InSiteLayout(Split(pathname, Sep), base)
    requires |Split(pathname, Sep)| == base + 3
    requires !StartsWith(file, "../") && Sep !in file
    ensures Resolve(PageDir(Split(pathname, Sep)), Up(SearchDepth(pathname)) + file)
         == Join(Split(pathname, Sep)[..base + 1] + [file], Sep)
        <==> base == 0
  {
    var segs := Split(pathname, Sep);
    var dir := PageDir(segs);
    SearchRootPathMissesPartsIndex(pathname, base);
    ResolveUp(dir, 3, file);
    var k := Kept(|dir|, 3);
    assert dir[..k] == segs[..k];
    if base == 0 {
      assert k == 1;
    } else {
      var a := segs[..k] + [file];
      var b := segs[..base + 1] + [file];
      assert |a| != |b|;
      forall i | 0 <= i < |a| ensures Sep !in a[i] {
        if i < k { assert a[i] == segs[i]; }
      }
      forall i | 0 <= i < |b| ensures Sep !in b[i] {
        if i < base + 1 { assert b[i] == segs[i]; }
      }
      JoinsDiffer(a, b);
    }
  }

  /** The concrete page `/parts/index.html` exhibits the divergence. */
  lemma PartsIndexExample()
    ensures InSiteLayout(Split("/parts/index.html", Sep), 0)
    ensures SearchDepth("/parts/index.html") == 3 && SidebarDepth("/parts/index.html") == 1
  {
    var parts := ["", PartsDir, IndexPage];
    var tail1 := PartsDir + [Sep] + IndexPage;
    assert Join(parts[1..], Sep) == tail1;
    assert "/parts/index.html" == "" + [Sep] + tail1;
    SplitJoin(parts, Sep);
    SearchRootPathMissesPartsIndex("/parts/index.html", 0);
    SidebarRootPathFitsLayout("/parts/index.html", 0);
  }

  /** `/tboi/parts/index.html` splits into its four segments. */
  lemma PrefixedPartsIndexSegments()
    ensures Split("/tboi/parts/index.html", Sep) == ["", "tboi", PartsDir, IndexPage]
  {
    var segs := ["", "tboi", PartsDir, IndexPage];
    var tail2 := PartsDir + [Sep] + IndexPage;
    var tail1 := "tboi" + [Sep] + tail2;
    assert Join(segs[2..], Sep) == tail2;
    assert Join(segs[1..], Sep) == tail1;
    assert "/tboi/parts/index.html" == "" + [Sep] + tail1;
    SplitJoin(segs, Sep);
  }

  /** The two root-level files a request can reach from `/tboi/parts/`,
      spelled out as literal paths; this lemma only has the solver evaluate
      two concrete joins for the worked example below. */
  lemma PrefixedTargets(fragment: string, index: string)
    requires fragment == "sidebar_content.html" && index == "search_index.json"
    ensures Join(["", "tboi", fragment], Sep) == "/tboi/sidebar_content.html"
    ensures Join(["", index], Sep) == "/search_index.json"
  {
    var parts := ["", "tboi", fragment];
    assert Join(parts[2..], Sep) == fragment;
    assert Join(parts[1..], Sep) == "tboi" + [Sep] + fragment;
  }

  /** Any page that splits like the parts index of a site served under
      `/tboi/` is in the layout, and the sidebar's request for
      `sidebar_content.html` reaches `/tboi/sidebar_content.html`. */
  lemma PrefixedPartsIndexSidebar(pathname: string, fragment: string)
    requires Split(pathname, Sep) == ["", "tboi", PartsDir, IndexPage]
    requires fragment == "sidebar_content.html"
    ensures InSiteLayout(Split(pathname, Sep), 1)
    ensures Resolve(PageDir(Split(pathname, Sep)), Up(SidebarDepth(pathname)) + fragment)
         == "/tboi/sidebar_content.html"
  {
    var segs := Split(pathname, Sep);
    assert InSiteLayout(segs, 1);
    assert fragment[0] != '.';
    SidebarRequestReachesRoot(pathname, 1, fragment);
    assert segs[..2] + [fragment] == ["", "tboi", fragment];
    PrefixedTargets(fragment, "search_index.json");
  }

  /** On the same page the search widget's request for `search_index.json`
      reaches `/search_index.json`, outside the site. */
  lemma PrefixedPartsIndexSearch(pathname: string, index: string)
    requires Split(pathname, Sep) == ["", "tboi", PartsDir, IndexPage]
    requires index == "search_index.json"
    ensures Resolve(PageDir(Split(pathname, Sep)), Up(SearchDepth(pathname)) + index)
         == "/search_index.json"
  {
    var segs := Split(pathname, Sep);
    assert InSiteLayout(segs, 1);
    assert index[0] != '.';
    SearchRootPathMissesPartsIndex(pathname, 1);
    ResolveUp(PageDir(segs), 3, index);
    assert PageDir(segs)[..Kept(3, 3)] + [index] == ["", index];
    PrefixedTargets("sidebar_content.html", index);
  }

  /** Worked example: the parts index of a site served under `/tboi/`. */
  lemma PrefixedPartsIndexExample()
    ensures InSiteLayout(Split("/tboi/parts/index.html", Sep), 1)
    ensures Resolve(PageDir(Split("/tboi/parts/index.html", Sep)),
                    Up(SidebarDepth("/tboi/parts/index.html")) + "sidebar_content.html")
         == "/tboi/sidebar_content.html"
    ensures Resolve(PageDir(Split("/tboi/parts/index.html", Sep)),
                    Up(SearchDepth("/tboi/parts/index.html")) + "search_index.json")
         == "/search_index.json"
  {
    PrefixedPartsIndexSegments();
    PrefixedPartsIndexSidebar("/tboi/parts/index.html", "sidebar_content.html");
    PrefixedPartsIndexSearch("/tboi/parts/index.html", "search_index.json");
  }

  /** `/parts/part_ii/chapter_03/section.html` splits into its five segments. */
  lemma ChapterPageSegments()
    ensures Split("/parts/part_ii/chapter_03/section.html", Sep)
         == ["", PartsDir, "part_ii", "chapter_03", "section.html"]
  {
    var section := ["", PartsDir, "part_ii", "chapter_03", "section.html"];
    var tail3 := "chapter_03" + [Sep] + "section.html";
    var tail2 := "part_ii" + [Sep] + tail3;
    var tail1 := PartsDir + [Sep] + tail2;
    assert Join(section[3..], Sep) == tail3;
    assert Join(section[2..], Sep) == tail2;
    assert Join(section[1..], Sep) == tail1;
    assert "/parts/part_ii/chapter_03/section.html" == "" + [Sep] + tail1;
    SplitJoin(section, Sep);
  }

  /** `/parts/part_ii/index.html` splits into its four segments. */
  lemma PartIndexSegments()
    ensures Split("/parts/part_ii/index.html", Sep) == ["", PartsDir, "part_ii", IndexPage]
  {
    var partIndex := ["", PartsDir, "part_ii", IndexPage];
    var tail2 := "part_ii" + [Sep] + IndexPage;
    var tail1 := PartsDir + [Sep] + tail2;
    assert Join(partIndex[2..], Sep) == tail2;
    assert Join(partIndex[1..], Sep) == tail1;
    assert "/parts/part_ii/index.html" == "" + [Sep] + tail1;
    SplitJoin(partIndex, Sep);
  }

  /** Any path that splits like a chapter page climbs three levels in both resolvers. */
  lemma ChapterPageDepth(pathname: string)
    requires Split(pathname, Sep) == ["", PartsDir, "part_ii", "chapter_03", "section.html"]
    ensures SidebarDepth(pathname) == 3 && SearchDepth(pathname) == 3
  {
    var segs := Split(pathname, Sep);
    assert StartsWith(segs[2], PartPrefix);
    assert StartsWith(segs[3], ChapterPrefix);
    SidebarRootPathFitsLayout(pathname, 0);
    SearchRootPathFitsLayoutElsewhere(pathname, 0);
  }

  /** Any path that splits like a part index climbs two levels in both resolvers. */
  lemma PartIndexDepth(pathname: string)
    requires Split(pathname, Sep) == ["", PartsDir, "part_ii", IndexPage]
    ensures SidebarDepth(pathname) == 2 && SearchDepth(pathname) == 2
  {
    var segs := Split(pathname, Sep);
    assert StartsWith(segs[2], PartPrefix);
    SidebarRootPathFitsLayout(pathname, 0);
    SearchRootPathFitsLayoutElsewhere(pathname, 0);
  }

  /** The prefixes the scripts write out literally are `Up` of 0 to 3 levels. */
  lemma UpLiterals()
    ensures Up(0) == "" && Up(1) == "../" && Up(2) == "../../" && Up(3) == "../../../"
  {
  }

  /** Worked example: a chapter page climbs three levels. */
  lemma ChapterPageExample()
    ensures SidebarDepth("/parts/part_ii/chapter_03/section.html") == 3
    ensures SearchDepth("/parts/part_ii/chapter_03/section.html") == 3
  {
    ChapterPageSegments();
    ChapterPageDepth("/parts/part_ii/chapter_03/section.html");
  }

  /** Worked example: a part index climbs two levels. */
  lemma PartIndexExample()
    ensures SidebarDepth("/parts/part_ii/index.html") == 2
    ensures SearchDepth("/parts/part_ii/index.html") == 2
  {
    PartIndexSegments();
    PartIndexDepth("/parts/part_ii/index.html");
  }

  /** `/index.html` splits into the root and the page. */
  lemma RootPageSegments()
    ensures Split("/index.html", Sep) == ["", IndexPage]
  {
    var home := ["", IndexPage];
    assert Join(home, Sep) == "/index.html";
    SplitJoin(home, Sep);
  }

  /** Worked example: a page at the site root climbs nothing. */
  lemma RootPageExample()
    ensures SidebarDepth("/index.html") == 0 && SearchDepth("/index.html") == 0
  {
    RootPageSegments();
    assert !InParts("/index.html");
  }
}

=== FILE: search.dfy ===
/**
 * The search widget (search.js): an index of entries loaded once per page,
 * filtered on every keystroke by case-insensitive substring match, cut to
 * the first ten matches, each shown with a snippet of its content around
 * the first match and with every match in the snippet highlighted.
 */
module Search {
  import opened Wrappers
  import opened Text
  import Paths

  /** One entry of `search_index.json`. */
  datatype Entry = Entry(title: string, content: Option<string>, url: string, part: string, chapter: string)

  const MinQueryLength := 2
  const MaxResults := 10
  const Before := 40
  const After := 100
  const Ellipsis := "..."
  const IndexFile := "search_index.json"

  /** `item.content` is truthy: present and not the empty string. */
  predicate HasContent(e: Entry)
  {
    e.content.Some? && e.content.value != ""
  }

  /** The filter's test: the lower-cased title, or the lower-cased content
      when there is one, contains the (already lower-cased) query. */
  predicate Matches(e: Entry, query: string)
    ensures query == [] ==> Matches(e, query)
    ensures Matches(e, query) ==> |query| <= |e.title| || (HasContent(e) && |query| <= |e.content.value|)
  {
    IncludesBounds(Lower(e.title), query);
    IncludesBounds(Lower(if e.content.Some? then e.content.value else ""), query);
    Includes(Lower(e.title), query) || (HasContent(e) && Includes(Lower(e.content.value), query))
  }

  /** `index.filter(matches)`: the matching entries in index order. */
  function Filter(index: seq<Entry>, query: string): (r: seq<Entry>)
    ensures |r| <= |index|
    ensures forall k :: 0 <= k < |r| ==> Matches(r[k], query)
    ensures forall e :: e in r ==> e in index
    ensures forall e :: e in index && Matches(e, query) ==> e in r
  {
    if index == [] then []
    else (if Matches(index[0], query) then [index[0]] else []) + Filter(index[1..], query)
  }

  /** Filtering distributes over concatenation: it keeps index order. */
  lemma {:induction false} FilterAppend(a: seq<Entry>, b: seq<Entry>, query: string)
    ensures Filter(a + b, query) == Filter(a, query) + Filter(b, query)
    decreases |a|
  {
    if a == [] {
      assert a + b == b;
    } else {
      assert (a + b)[0] == a[0];
      assert (a + b)[1..] == a[1..] + b;
      FilterAppend(a[1..], b, query);
    }
  }

  /** `filter(...).slice(0, 10)`: the first ten matches, in index order. */
  function TopResults(index: seq<Entry>, query: string): (r: seq<Entry>)
    ensures |r| == if |Filter(index, query)| < MaxResults then |Filter(index, query)| else MaxResults
    ensures r == Filter(index, query)[..|r|]
  {
    var matches := Filter(index, query);
    if |matches| <= MaxResults then matches else matches[..MaxResults]
  }

  /** A matching entry preceded by fewer than ten matches is kept, at the
      position given by the number of matches before it. */
  lemma {:induction false} MatchIsKeptAtItsRank(index: seq<Entry>, query: string, k: nat)
    requires k < |index| && Matches(index[k], query)
    requires |Filter(index[..k], query)| < MaxResults
    ensures var rank := |Filter(index[..k], query)|;
            rank < |TopResults(index, query)| && TopResults(index, query)[rank] == index[k]
  {
    var before, after := index[..k], index[k + 1..];
    assert index == before + ([index[k]] + after);
    FilterAppend(before, [index[k]] + after, query);
    FilterAppend([index[k]], after, query);
    assert Filter([index[k]], query) == [index[k]] by { assert [index[k]][1..] == []; }
    var rank := |Filter(before, query)|;
    assert Filter(index, query) == Filter(before, query) + ([index[k]] + Filter(after, query));
    assert Filter(index, query)[rank] == index[k];
  }

  /** Every result comes from the index, at a position preceded by exactly
      as many matches as there are results before it. */
  lemma {:induction false} ResultHasRank(index: seq<Entry>, query: string, j: nat)
    requires j < |Filter(index, query)|
    ensures exists k :: 0 <= k < |index| && index[k] == Filter(index, query)[j] && Matches(index[k], query)
                        && |Filter(index[..k], query)| == j
    decreases |index|
  {
    var n := |index|;
    var init := index[..n - 1];
    assert index == init + [index[n - 1]];
    FilterAppend(init, [index[n - 1]], query);
    if j < |Filter(init, query)| {
      ResultHasRank(init, query, j);
      var k :| 0 <= k < |init| && init[k] == Filter(init, query)[j] && Matches(init[k], query)
               && |Filter(init[..k], query)| == j;
      assert init[..k] == index[..k];
    } else {
      assert Filter([index[n - 1]], query) == [index[n - 1]];
      assert index[..n - 1] == init;
    }
  }

  /** Start of the snippet window: 40 characters before the match, at least 0. */
  function WindowStart(idx: int): int
  {
    if idx - Before > 0 then idx - Before else 0
  }

  /** End of the snippet window: 100 characters after the match start, at most the length. */
  function WindowEnd(len: nat, idx: int): int
  {
    if len < idx + After then len else idx + After
  }

  /** The snippet of an entry: the content around the first match of the
      query, followed by an ellipsis; empty when the entry has no content.
      When only the title matched, `indexOf` gives -1 and the window starts
      at 0 and ends at 99. */
  function Snippet(e: Entry, query: string): (s: string)
    ensures !HasContent(e) ==> s == ""
    ensures HasContent(e) ==> |s| >= |Ellipsis| && s[|s| - |Ellipsis|..] == Ellipsis
    ensures |s| <= Before + After + |Ellipsis|
  {
    if !HasContent(e) then ""
    else
      var content := e.content.value;
      var idx := IndexOf(Lower(content), query);
      var start := WindowStart(idx);
      var end := WindowEnd(|content|, idx);
      content[start..end] + Ellipsis
  }

  /** The window is anchored at the first occurrence of the query in the
      lower-cased content. */
  lemma SnippetAroundFirstMatch(e: Entry, query: string, i: nat)
    requires HasContent(e) && OccursAt(Lower(e.content.value), query, i)
    requires forall j :: 0 <= j < i ==> !OccursAt(Lower(e.content.value), query, j)
    ensures var c := e.content.value;
            WindowStart(i) <= i <= WindowEnd(|c|, i) <= |c| &&
            Snippet(e, query) == c[WindowStart(i)..WindowEnd(|c|, i)] + Ellipsis
  {
  }

  /** A title-only match shows the first 99 characters of the content. */
  lemma SnippetForTitleOnlyMatch(e: Entry, query: string)
    requires HasContent(e) && !Includes(Lower(e.content.value), query)
    ensures var c := e.content.value;
            Snippet(e, query) == c[..if |c| < After - 1 then |c| else After - 1] + Ellipsis
  {
  }

  /** An occurrence inside a window of the lower-cased text is an
      occurrence in the lower-cased window, with anything appended. */
  lemma OccursInWindow(c: string, query: string, i: nat, start: nat, end: nat, tail: string)
    requires start <= i && i + |query| <= end <= |c|
    requires OccursAt(Lower(c), query, i)
    ensures OccursAt(Lower(c[start..end] + tail), query, i - start)
  {
    var s := c[start..end] + tail;
    var ls := Lower(s);
    forall m | 0 <= m < |query|
      ensures ls[i - start + m] == query[m]
    {
      assert s[i - start + m] == c[i + m];
      assert Lower(c)[i..i + |query|][m] == query[m];
    }
    assert ls[i - start..i - start + |query|] == query;
  }

  /** A query no longer than the window's reach shows in its snippet. */
  lemma SnippetShowsMatch(e: Entry, query: string)
    requires HasContent(e) && Includes(Lower(e.content.value), query)
    requires |query| <= After
    ensures Includes(Lower(Snippet(e, query)), query)
  {
    var c := e.content.value;
    var i := IndexOf(Lower(c), query);
    var start, end := WindowStart(i), WindowEnd(|c|, i);
    assert Snippet(e, query) == c[start..end] + Ellipsis;
    OccursInWindow(c, query, i, start, end, Ellipsis);
  }

  /** One rendered result: the entry, its link and its highlighted snippet. */
  datatype Hit = Hit(entry: Entry, href: string, snippet: seq<Piece>)

  /** What the results area shows. */
  datatype ResultsArea = Blank | LoadError | NoResults | Hits(hits: seq<Hit>)

  function ToHit(e: Entry, query: string, rootPath: string): Hit
    requires query != ""
  {
    Hit(e, rootPath + e.url, Highlight(Snippet(e, query), query))
  }

  function ToHits(entries: seq<Entry>, query: string, rootPath: string): (r: seq<Hit>)
    requires query != ""
    ensures |r| == |entries|
    ensures forall k :: 0 <= k < |r| ==> r[k] == ToHit(entries[k], query, rootPath)
  {
    if entries == [] then [] else [ToHit(entries[0], query, rootPath)] + ToHits(entries[1..], query, rootPath)
  }

  /** The input handler: lower-case the query; blank the results for fewer
      than two characters; otherwise show the first ten matches, or the
      no-results message when there are none. */
  function Respond(raw: string, index: seq<Entry>, rootPath: string): (r: ResultsArea)
    ensures r == Blank <==> |raw| < MinQueryLength
    ensures r == NoResults <==> |raw| >= MinQueryLength && forall e :: e in index ==> !Matches(e, Lower(raw))
    ensures r.Hits? ==> 1 <= |r.hits| <= MaxResults && |r.hits| == |TopResults(index, Lower(raw))|
    ensures r.Hits? ==> forall k :: 0 <= k < |r.hits| ==>
              r.hits[k].entry == TopResults(index, Lower(raw))[k] && Matches(r.hits[k].entry, Lower(raw)) &&
              r.hits[k].href == rootPath + r.hits[k].entry.url &&
              r.hits[k].snippet == Highlight(Snippet(r.hits[k].entry, Lower(raw)), Lower(raw))
    ensures !r.LoadError?
  {
    var query := Lower(raw);
    if |query| < MinQueryLength then Blank
    else
      var results := TopResults(index, query);
      if |results| == 0 then NoResults
      else Hits(ToHits(results, query, rootPath))
  }

  /** A short query blanks the results whatever the index holds. */
  lemma ShortQueryIgnoresIndex(raw: string, a: seq<Entry>, b: seq<Entry>, rootPath: string)
    requires |raw| < MinQueryLength
    ensures Respond(raw, a, rootPath) == Respond(raw, b, rootPath) == Blank
  {
  }

  /** An entry whose first match lies within 40 characters of the start
      of a content at most 100 characters past that match shows its whole
      content. */
  lemma WholeContentSnippet(e: Entry, query: string)
    requires HasContent(e)
    requires 0 <= IndexOf(Lower(e.content.value), query) <= Before
    requires |e.content.value| <= IndexOf(Lower(e.content.value), query) + After
    ensures Snippet(e, query) == e.content.value + Ellipsis
  {
    var c := e.content.value;
    assert c[0..|c|] == c;
  }

  /** When exactly one entry is among the top results, the results area
      shows that one hit. */
  lemma SingleHit(raw: string, index: seq<Entry>, rootPath: string, e: Entry, snippet: string)
    requires |raw| >= MinQueryLength
    requires TopResults(index, Lower(raw)) == [e]
    requires Snippet(e, Lower(raw)) == snippet
    ensures Respond(raw, index, rootPath) == Hits([Hit(e, rootPath + e.url, Highlight(snippet, Lower(raw)))])
  {
    var hits := ToHits([e], Lower(raw), rootPath);
    assert hits == [hits[0]];
  }

  // Highlighting

  /** A highlighted snippet: plain characters and marked matches. */
  datatype Piece = Plain(c: char) | Mark(text: string)

  function TextOf(pieces: seq<Piece>): string
  {
    if pieces == [] then ""
    else (match pieces[0] case Plain(c) => [c] case Mark(t) => t) + TextOf(pieces[1..])
  }

  /** `s` starts with a case-insensitive match of the lower-case `query`. */
  predicate StartsWithMatch(s: string, query: string)
  {
    |query| <= |s| && Lower(s[..|query|]) == query
  }

  /** `snippet.replace(new RegExp(query, 'gi'), ...)` for a query read as
      literal text: scanning left to right, each case-insensitive match is
      marked and scanning resumes after it. */
  function Highlight(s: string, query: string): (r: seq<Piece>)
    requires query != ""
    ensures forall k :: 0 <= k < |r| && r[k].Mark? ==> Lower(r[k].text) == query
    decreases |s|
  {
    if s == [] then []
    else if StartsWithMatch(s, query) then [Mark(s[..|query|])] + Highlight(s[|query|..], query)
    else [Plain(s[0])] + Highlight(s[1..], query)
  }

  /** Highlighting changes no character: the text is the snippet. */
  lemma {:induction false} HighlightKeepsText(s: string, query: string)
    requires query != ""
    ensures TextOf(Highlight(s, query)) == s
    decreases |s|
  {
    if s != [] {
      var r := Highlight(s, query);
      if StartsWithMatch(s, query) {
        HighlightKeepsText(s[|query|..], query);
        assert r[1..] == Highlight(s[|query|..], query);
        assert s == s[..|query|] + s[|query|..];
      } else {
        HighlightKeepsText(s[1..], query);
        assert r[1..] == Highlight(s[1..], query);
        assert s == [s[0]] + s[1..];
      }
    }
  }

  /** No match is left unmarked: the text from any plain character on does
      not start with a match. */
  lemma {:induction false} HighlightMissesNothing(s: string, query: string, k: nat)
    requires query != ""
    requires k < |Highlight(s, query)| && Highlight(s, query)[k].Plain?
    ensures !StartsWithMatch(TextOf(Highlight(s, query)[k..]), query)
    decreases |s|
  {
    var r := Highlight(s, query);
    if k == 0 {
      HighlightKeepsText(s, query);
      assert r[0..] == r;
    } else if StartsWithMatch(s, query) {
      HighlightMissesNothing(s[|query|..], query, k - 1);
      assert r[k..] == Highlight(s[|query|..], query)[k - 1..];
    } else {
      HighlightMissesNothing(s[1..], query, k - 1);
      assert r[k..] == Highlight(s[1..], query)[k - 1..];
    }
  }

  /** What a hit of the results area shows: its snippet's text, with every
      case-insensitive match of the query marked and no match left plain. */
  lemma {:induction false} HitMarksMatches(raw: string, index: seq<Entry>, rootPath: string, k: nat)
    requires Respond(raw, index, rootPath).Hits?
    requires k < |Respond(raw, index, rootPath).hits|
    ensures var hit := Respond(raw, index, rootPath).hits[k];
            TextOf(hit.snippet) == Snippet(hit.entry, Lower(raw))
    ensures var hit := Respond(raw, index, rootPath).hits[k];
            forall j :: 0 <= j < |hit.snippet| && hit.snippet[j].Mark? ==> Lower(hit.snippet[j].text) == Lower(raw)
    ensures var hit := Respond(raw, index, rootPath).hits[k];
            forall j :: 0 <= j < |hit.snippet| && hit.snippet[j].Plain? ==>
              !StartsWithMatch(TextOf(hit.snippet[j..]), Lower(raw))
  {
    var query := Lower(raw);
    var hit := Respond(raw, index, rootPath).hits[k];
    var snippet := Snippet(hit.entry, query);
    HighlightKeepsText(snippet, query);
    forall j | 0 <= j < |hit.snippet| && hit.snippet[j].Plain?
      ensures !StartsWithMatch(TextOf(hit.snippet[j..]), query)
    {
      HighlightMissesNothing(snippet, query, j);
    }
  }

  /** Rendering throws: the query is long enough to render hits, the
      regular expression engine rejects it as a pattern, and some result
      has content whose snippet would be highlighted with it. */
  predicate RenderThrows(raw: string, index: seq<Entry>, patternCompiles: bool)
  {
    |Lower(raw)| >= MinQueryLength && !patternCompiles &&
    exists e :: e in TopResults(index, Lower(raw)) && HasContent(e)
  }

  /** The query has no regular expression metacharacter, so `new RegExp`
      accepts it and it matches itself literally. */
  predicate LiteralPattern(query: string)
  {
    forall c :: c in query ==> c !in "\\^$.|?*+()[]{}"
  }

  // The loader

  /** What fetching and parsing `search_index.json` gave. */
  datatype FetchOutcome = Fetched(entries: seq<Entry>) | FetchFailed

  class SearchWidget {
    const rootPath: string
    var searchIndex: seq<Entry>
    var isLoaded: bool
    var results: ResultsArea

    /** Until a load succeeds the index is the empty one it starts with. */
    ghost predicate Valid()
      reads this
    {
      !isLoaded ==> searchIndex == []
    }

    constructor (pathname: string)
      ensures Valid()
      ensures rootPath == Paths.Up(Paths.SearchDepth(pathname))
      ensures searchIndex == [] && !isLoaded && results == Blank
    {
      var r := Paths.SearchRootPath(pathname);
      rootPath := r;
      searchIndex := [];
      isLoaded := false;
      results := Blank;
    }

    /** Opening the search panel: fetch the index unless it is loaded.
        `outcome` is what that fetch would give; `request` is the URL
        fetched, if any. Only a success sets the index and `isLoaded`;
        a failure shows the error message and leaves `isLoaded` false, so
        the next opening fetches again. */
    method Open(outcome: FetchOutcome) returns (request: Option<string>)
      requires Valid()
      modifies this
      ensures Valid()
      ensures old(isLoaded) ==> request == None && isLoaded
                                && searchIndex == old(searchIndex) && results == old(results)
      ensures !old(isLoaded) ==> request == Some(rootPath + IndexFile)
      ensures !old(isLoaded) && outcome.Fetched? ==>
                isLoaded && searchIndex == outcome.entries && results == old(results)
      ensures !old(isLoaded) && outcome.FetchFailed? ==>
                !isLoaded && searchIndex == old(searchIndex) && results == LoadError
    {
      request := None;
      if !isLoaded {
        request := Some(rootPath + IndexFile);
        match outcome
        case Fetched(entries) =>
          searchIndex := entries;
          isLoaded := true;
        case FetchFailed =>
          results := LoadError;
      }
    }

    /** A keystroke in the search field with the field's whole text `raw`.
        `patternCompiles` is whether `new RegExp(query, 'gi')` accepts the
        lower-cased query. When rendering throws, the results area keeps
        what it showed. */
    method Input(raw: string, patternCompiles: bool)
      requires Valid()
      requires LiteralPattern(Lower(raw)) ==> patternCompiles
      modifies this`results
      ensures Valid()
      ensures RenderThrows(raw, searchIndex, patternCompiles) ==> results == old(results)
      ensures !RenderThrows(raw, searchIndex, patternCompiles) ==> results == Respond(raw, searchIndex, rootPath)
      ensures !isLoaded && |Lower(raw)| >= MinQueryLength ==> results == NoResults
    {
      var query := Lower(raw);
      if |query| < MinQueryLength {
        results := Blank;
      } else {
        var top := TopResults(searchIndex, query);
        if |top| == 0 {
          results := NoResults;
        } else if !patternCompiles && exists e | e in top :: HasContent(e) {
          // the render callback throws before the assignment
        } else {
          results := Hits(ToHits(top, query, rootPath));
        }
      }
    }
  }
}

=== FILE: search_examples.dfy ===
/**
 * The worked example of the search widget: an index of two entries,
 * Alpha (with content) and Beta (without), searched for "alpha", "b"
 * and "be".
 */
module SearchExamples {
  import opened Wrappers
  import opened Text
  import opened Search

  lemma AlphaTitle(t: string, q: string)
    requires t == "Alpha" && q == "alpha"
    ensures Lower(t) == q && OccursAt(Lower(t), q, 0)
  {
  }

  lemma BetaTitle(t: string, q: string)
    requires t == "Beta" && q == "be"
    ensures Lower(t) == "beta" && OccursAt(Lower(t), q, 0)
  {
  }

  /** "alpha" first occurs at position 4 of "the alpha particle". */
  lemma FirstAlpha(c: string, q: string)
    requires c == "the alpha particle" && q == "alpha"
    ensures Lower(c) == c
    ensures IndexOf(Lower(c), q) == 4
  {
    LowerOfLowerCase(c);
    assert OccursAt(c, q, 4);
    forall j | 0 <= j < 4 ensures !OccursAt(c, q, j) {
      assert c[j] != q[0];
    }
  }

  lemma AlphaContentLength(c: string)
    requires c == "the alpha particle"
    ensures |c| == 18 && c + Ellipsis == "the alpha particle..."
  {
  }

  /** A two-character pattern whose characters are never adjacent in a text does not occur in it. */
  lemma NoOccurrence(text: string, pat: string)
    requires |pat| == 2
    requires forall j :: 0 <= j < |text| - 1 ==> text[j] != pat[0] || text[j + 1] != pat[1]
    ensures !Includes(text, pat)
  {
    forall j | 0 <= j <= |text| - |pat| ensures !OccursAt(text, pat, j) {
      assert text[j] != pat[0] || text[j + 1] != pat[1];
    }
  }

  lemma AlphaFilter(alpha: Entry, beta: Entry, raw: string)
    requires alpha == Entry("Alpha", Some("the alpha particle"), "a.html", "P1", "C1")
    requires beta == Entry("Beta", None, "b.html", "P1", "C2")
    requires raw == "alpha"
    ensures TopResults([alpha, beta], raw) == [alpha]
  {
    AlphaTitle(alpha.title, raw);
    var betaTitle := Lower(beta.title);
    BetaTitle(beta.title, "be");
    NotIncludedInShorter(betaTitle, raw);
    assert Matches(alpha, raw) && !Matches(beta, raw);
    assert [alpha, beta][1..] == [beta];
    assert Filter([beta], raw) == [];
  }

  lemma AlphaSnippet(alpha: Entry, raw: string)
    requires alpha == Entry("Alpha", Some("the alpha particle"), "a.html", "P1", "C1")
    requires raw == "alpha"
    ensures |raw| >= MinQueryLength && Lower(raw) == raw
    ensures Snippet(alpha, raw) == "the alpha particle..."
  {
    LowerOfLowerCase(raw);
    FirstAlpha(alpha.content.value, raw);
    AlphaContentLength(alpha.content.value);
    WholeContentSnippet(alpha, raw);
  }

  /** A character that does not lower-case to the query's first one stays plain. */
  lemma PlainStep(s: string, query: string)
    requires query != "" && s != [] && LowerChar(s[0]) != query[0]
    ensures Highlight(s, query) == [Plain(s[0])] + Highlight(s[1..], query)
  {
  }

  /** Four characters unlike the query's first, then the lower-case query
      itself: four plain pieces and one mark. */
  lemma MarkAfterFour(s: string, query: string)
    requires |query| == 5 && Lower(query) == query && |s| >= 9
    requires forall i :: 0 <= i < 4 ==> LowerChar(s[i]) != query[0]
    requires s[4..9] == query
    ensures |Highlight(s, query)| >= 5
    ensures Highlight(s, query)[..5] == [Plain(s[0]), Plain(s[1]), Plain(s[2]), Plain(s[3]), Mark(query)]
  {
    PlainStep(s, query);
    PlainStep(s[1..], query);
    PlainStep(s[2..], query);
    PlainStep(s[3..], query);
    assert s[1..][1..] == s[2..] && s[2..][1..] == s[3..] && s[3..][1..] == s[4..];
    assert s[4..][..5] == query;
    var tail := Highlight(s[9..], query);
    assert s[4..][5..] == s[9..];
    assert Highlight(s[4..], query) == [Mark(query)] + tail;
    assert Highlight(s, query) == [Plain(s[0]), Plain(s[1]), Plain(s[2]), Plain(s[3]), Mark(query)] + tail;
  }

  /** In the snippet of Alpha, the first four characters stay plain and
      the fifth piece marks "alpha". */
  lemma AlphaMarks(s: string, query: string)
    requires s == "the alpha particle..." && query == "alpha"
    ensures |Highlight(s, query)| >= 5
    ensures Highlight(s, query)[..5] == [Plain('t'), Plain('h'), Plain('e'), Plain(' '), Mark("alpha")]
  {
    LowerOfLowerCase(query);
    assert s == "the " + query + " particle...";
    assert s[4..9] == query;
    assert s[0] == 't' && s[1] == 'h' && s[2] == 'e' && s[3] == ' ';
    forall i | 0 <= i < 4 ensures LowerChar(s[i]) != query[0] {
    }
    MarkAfterFour(s, query);
  }

  /** "alpha" finds Alpha alone, with its whole content as the snippet. */
  lemma AlphaExample(alpha: Entry, beta: Entry, raw: string, rootPath: string)
    requires alpha == Entry("Alpha", Some("the alpha particle"), "a.html", "P1", "C1")
    requires beta == Entry("Beta", None, "b.html", "P1", "C2")
    requires raw == "alpha"
    ensures Respond(raw, [alpha, beta], rootPath)
         == Hits([Hit(alpha, rootPath + alpha.url, Highlight("the alpha particle...", raw))])
    ensures TextOf(Highlight("the alpha particle...", raw)) == "the alpha particle..."
  {
    AlphaFilter(alpha, beta, raw);
    AlphaSnippet(alpha, raw);
    SingleHit(raw, [alpha, beta], rootPath, alpha, "the alpha particle...");
    HighlightKeepsText("the alpha particle...", raw);
  }

  lemma ContentLacksBe(c: string, raw: string)
    requires c == "the alpha particle" && raw == "be"
    ensures !Includes(Lower(c), raw)
  {
    LowerOfLowerCase(c);
    NoOccurrence(c, raw);
  }

  lemma AlphaLacksBe(alpha: Entry, raw: string)
    requires alpha == Entry("Alpha", Some("the alpha particle"), "a.html", "P1", "C1")
    requires raw == "be"
    ensures !Matches(alpha, raw)
  {
    AlphaTitle(alpha.title, "alpha");
    NoOccurrence(Lower(alpha.title), raw);
    ContentLacksBe(alpha.content.value, raw);
  }

  lemma BetaFilter(alpha: Entry, beta: Entry, raw: string)
    requires alpha == Entry("Alpha", Some("the alpha particle"), "a.html", "P1", "C1")
    requires beta == Entry("Beta", None, "b.html", "P1", "C2")
    requires raw == "be"
    ensures TopResults([alpha, beta], raw) == [beta]
  {
    BetaTitle(beta.title, raw);
    AlphaLacksBe(alpha, raw);
    assert Matches(beta, raw);
    assert [alpha, beta][1..] == [beta];
    assert Filter([beta], raw) == [beta];
  }

  /** The one-letter query "b" is below the two-character minimum and
      blanks the results; "be" finds Beta, whose missing content gives an
      empty snippet. */
  lemma BetaExample(alpha: Entry, beta: Entry, raw: string, rootPath: string)
    requires alpha == Entry("Alpha", Some("the alpha particle"), "a.html", "P1", "C1")
    requires beta == Entry("Beta", None, "b.html", "P1", "C2")
    requires raw == "be"
    ensures Respond(raw[..1], [alpha, beta], rootPath) == Blank
    ensures Respond(raw, [alpha, beta], rootPath) == Hits([Hit(beta, rootPath + beta.url, [])])
  {
    BetaFilter(alpha, beta, raw);
    LowerOfLowerCase(raw);
    SingleHit(raw, [alpha, beta], rootPath, beta, "");
  }
}

=== FILE: sidebar.dfy ===
/**
 * The navigation sidebar (sidebar.js): a shared fragment fetched once per
 * page, whose anchors are rewritten to climb to the site root, and an
 * open/closed state held by the container, the overlay and the body's
 * scroll lock.
 */
module Sidebar {
  import opened Wrappers
  import Paths
  import Text

  const FragmentFile := "sidebar_content.html"

  /** An anchor of the fragment: its destination and its `data-path`. */
  datatype Anchor = Anchor(href: string, dataPath: Option<string>)

  /** `link.getAttribute('data-path')` is truthy: present and not empty. */
  predicate HasRawPath(a: Anchor)
  {
    a.dataPath.Some? && a.dataPath.value != ""
  }

  /** The anchors after the rewrite: those with a raw path point at
      `rootPath` followed by it, all others are as they were. */
  function Rewritten(anchors: seq<Anchor>, rootPath: string): (r: seq<Anchor>)
    ensures |r| == |anchors|
    ensures forall i :: 0 <= i < |r| ==> r[i].dataPath == anchors[i].dataPath
    ensures forall i :: 0 <= i < |r| && HasRawPath(anchors[i]) ==> r[i].href == rootPath + anchors[i].dataPath.value
    ensures forall i :: 0 <= i < |r| && !HasRawPath(anchors[i]) ==> r[i] == anchors[i]
  {
    if anchors == [] then []
    else
      var a := anchors[0];
      [if HasRawPath(a) then a.(href := rootPath + a.dataPath.value) else a] + Rewritten(anchors[1..], rootPath)
  }

  /** Rewriting twice is rewriting once: the href is recomputed from the
      unchanged `data-path`. */
  lemma {:induction false} RewriteIdempotent(anchors: seq<Anchor>, rootPath: string)
    ensures Rewritten(Rewritten(anchors, rootPath), rootPath) == Rewritten(anchors, rootPath)
  {
    var once := Rewritten(anchors, rootPath);
    var twice := Rewritten(once, rootPath);
    forall i | 0 <= i < |anchors| ensures twice[i] == once[i] {
      assert HasRawPath(once[i]) == HasRawPath(anchors[i]);
    }
  }

  /** The `links.forEach` loop, in place over the container's anchors. */
  method RewriteLinks(links: array<Anchor>, rootPath: string)
    modifies links
    ensures links[..] == Rewritten(old(links[..]), rootPath)
  {
    ghost var original := links[..];
    for i := 0 to links.Length
      invariant links[..i] == Rewritten(original[..i], rootPath)
      invariant links[i..] == original[i..]
    {
      assert links[i] == original[i];
      var rawPath := links[i].dataPath;
      if rawPath.Some? && rawPath.value != "" {
        links[i] := links[i].(href := rootPath + rawPath.value);
      }
      assert links[i] == Rewritten([original[i]], rootPath)[0];
      assert links[..i + 1] == links[..i] + [links[i]];
      assert original[..i + 1] == original[..i] + [original[i]];
      RewrittenSnoc(original[..i], original[i], rootPath);
    }
    assert original[..links.Length] == original;
  }

  /** Rewriting one more anchor extends the rewritten prefix by one. */
  lemma {:induction false} RewrittenSnoc(anchors: seq<Anchor>, a: Anchor, rootPath: string)
    ensures Rewritten(anchors + [a], rootPath)
         == Rewritten(anchors, rootPath) + Rewritten([a], rootPath)
    decreases |anchors|
  {
    if anchors == [] {
      assert anchors + [a] == [a];
    } else {
      assert (anchors + [a])[0] == anchors[0];
      assert (anchors + [a])[1..] == anchors[1..] + [a];
      RewrittenSnoc(anchors[1..], a, rootPath);
    }
  }

  /** The visible state: the container's `open` class, the overlay's
      `active` class and the body's inline `overflow`. */
  datatype Panel = Panel(containerOpen: bool, overlayActive: bool, bodyOverflow: string)

  const Closed := Panel(false, false, "")
  const Opened := Panel(true, true, "hidden")

  /** The three fields move together: both classes present and scrolling
      locked, or neither class and scrolling restored. */
  predicate Consistent(p: Panel)
  {
    p.containerOpen == p.overlayActive && p.bodyOverflow == (if p.containerOpen then "hidden" else "")
  }

  /** What a click lands on. */
  datatype Target = Toggle | CloseButton | Overlay | SidebarLink(index: nat)

  /** The open handler on the toggle; `closeSidebar` on everything else. */
  function AfterClick(p: Panel, t: Target): (r: Panel)
    ensures Consistent(r)
    ensures r.containerOpen <==> t == Toggle
  {
    match t
    case Toggle => Opened
    case CloseButton => Closed
    case Overlay => Closed
    case SidebarLink(_) => Closed
  }

  /** Opening sets both classes and locks scrolling, from any state. */
  lemma OpenLocksScroll(p: Panel)
    ensures AfterClick(p, Toggle) == Opened && Consistent(Opened)
  {
  }

  /** Every close trigger has the same effect, and closing twice is
      closing once. */
  lemma CloseTriggersAgree(p: Panel, i: nat)
    ensures AfterClick(p, CloseButton) == AfterClick(p, Overlay) == AfterClick(p, SidebarLink(i)) == Closed
    ensures AfterClick(AfterClick(p, CloseButton), CloseButton) == AfterClick(p, CloseButton)
  {
  }

  /** Opening and then closing by any trigger returns all three fields to
      their closed values. */
  lemma OpenThenCloseRestores(p: Panel, t: Target)
    requires t != Toggle
    ensures AfterClick(AfterClick(p, Toggle), t) == Closed
  {
  }

  /** Every click keeps the three fields consistent. */
  lemma ClickKeepsConsistent(p: Panel, t: Target)
    ensures Consistent(AfterClick(p, t))
  {
  }

  /** The fetch of `sidebar_content.html`: a response with its `ok` flag
      and the anchors of its body, or a network error. */
  datatype FragmentResponse = Response(ok: bool, anchors: seq<Anchor>) | NetworkError

  class SidebarController {
    const pathname: string
    const rootPath: string
    var links: array<Anchor>
    var wired: bool
    var panel: Panel

    ghost predicate Valid()
      reads this
    {
      rootPath == Paths.Up(Paths.SidebarDepth(pathname)) && Consistent(panel)
    }

    /** Page load: compute the root path with both overrides. */
    constructor (pathname: string)
      ensures Valid()
      ensures this.pathname == pathname && rootPath == Paths.Up(Paths.SidebarDepth(pathname))
      ensures links.Length == 0 && !wired && panel == Closed
    {
      var r := Paths.SidebarRootPath(pathname);
      this.pathname := pathname;
      rootPath := r;
      links := new Anchor[0];
      wired := false;
      panel := Closed;
    }

    /** The fetch issued at page load: the fragment's URL relative to the
        current page. On every page of the site layout, wherever the site
        is served, it resolves to the fragment in the site's root
        directory. */
    method RequestFragment() returns (request: string)
      requires Valid()
      ensures request == rootPath + FragmentFile
      ensures forall base: nat :: Paths.InSiteLayout(Text.Split(pathname, Paths.Sep), base) ==>
                Paths.Resolve(Paths.PageDir(Text.Split(pathname, Paths.Sep)), request)
                == Text.Join(Text.Split(pathname, Paths.Sep)[..base + 1] + [FragmentFile], Paths.Sep)
    {
      request := rootPath + FragmentFile;
      forall base: nat | Paths.InSiteLayout(Text.Split(pathname, Paths.Sep), base)
        ensures Paths.Resolve(Paths.PageDir(Text.Split(pathname, Paths.Sep)), request)
                == Text.Join(Text.Split(pathname, Paths.Sep)[..base + 1] + [FragmentFile], Paths.Sep)
      {
        assert FragmentFile[0] != '.';
        Paths.SidebarRequestReachesRoot(pathname, base, FragmentFile);
      }
    }

    /** The fetch completes. An ok response is injected: its anchors become
        the links, rewritten against the root path, and the handlers are
        wired. A non-ok response or a network error is only logged: the
        container stays empty and no rewrite runs. */
    method Load(response: FragmentResponse)
      requires Valid()
      modifies this
      ensures Valid()
      ensures response.Response? && response.ok ==>
                fresh(links) && links[..] == Rewritten(response.anchors, rootPath)
                && wired && panel == old(panel)
      ensures !(response.Response? && response.ok) ==>
                links == old(links) && wired == old(wired) && panel == old(panel)
    {
      if response.Response? && response.ok {
        var injected := new Anchor[|response.anchors|](i requires 0 <= i < |response.anchors| => response.anchors[i]);
        assert injected[..] == response.anchors;
        RewriteLinks(injected, rootPath);
        links := injected;
        wired := true;
      }
    }

    /** A click. Before the fragment is wired no handler exists; a link
        handler exists only for a link of the fragment. */
    method Click(t: Target)
      requires Valid()
      modifies this`panel
      ensures Valid()
      ensures panel == if wired && (t.SidebarLink? ==> t.index < links.Length)
                       then AfterClick(old(panel), t) else old(panel)
    {
      if wired && (t.SidebarLink? ==> t.index < links.Length) {
        ClickKeepsConsistent(panel, t);
        panel := AfterClick(panel, t);
      }
    }
  }
}

=== FILE: text.dfy ===
/**
 * The JavaScript string operations the two scripts rely on, over `string`
 * (a sequence of characters): `toLowerCase` (ASCII letters only),
 * `includes`, `indexOf`, `startsWith`, `endsWith` and `split` on a single
 * separator character, together with `join` as the inverse of `split`.
 */
module Text {

  /** ASCII lower-casing of one character; every other character is kept. */
  function LowerChar(c: char): char
  {
    if 'A' <= c <= 'Z' then (c as int + 32) as char else c
  }

  /** `s.toLowerCase()`, restricted to ASCII: the length never changes, so
      an index into the lower-cased string is an index into `s`. */
  function Lower(s: string): (r: string)
    ensures |r| == |s|
    ensures forall i :: 0 <= i < |s| ==> r[i] == LowerChar(s[i])
  {
    if s == [] then [] else [LowerChar(s[0])] + Lower(s[1..])
  }

  /** A string without upper-case ASCII letters is its own lower-case form. */
  lemma LowerOfLowerCase(s: string)
    requires forall i :: 0 <= i < |s| ==> !('A' <= s[i] <= 'Z')
    ensures Lower(s) == s
  {
  }

  predicate StartsWith(s: string, prefix: string)
  {
    |prefix| <= |s| && s[..|prefix|] == prefix
  }

  predicate EndsWith(s: string, suffix: string)
  {
    |suffix| <= |s| && s[|s| - |suffix|..] == suffix
  }

  /** `pat` occurs in `text` starting at position `i`. */
  predicate OccursAt(text: string, pat: string, i: int)
  {
    0 <= i && i + |pat| <= |text| && text[i..i + |pat|] == pat
  }

  /** `text.includes(pat)`. */
  predicate Includes(text: string, pat: string)
  {
    exists i :: 0 <= i <= |text| - |pat| && OccursAt(text, pat, i)
  }

  /** Nothing longer than a text occurs in it. */
  lemma NotIncludedInShorter(text: string, pat: string)
    requires |text| < |pat|
    ensures !Includes(text, pat)
  {
  }

  /** The empty pattern occurs in every text, and a pattern occurs only in
      a text at least as long. */
  lemma IncludesBounds(text: string, pat: string)
    ensures pat == [] ==> Includes(text, pat)
    ensures Includes(text, pat) ==> |pat| <= |text|
  {
    if pat == [] {
      assert OccursAt(text, pat, 0);
    }
  }

  /** The scan behind `text.indexOf(pat)`, started at position `from`. */
  function IndexOfFrom(text: string, pat: string, from: nat): (r: int)
    requires from <= |text|
    decreases |text| - from
    ensures r == -1 || (from <= r && OccursAt(text, pat, r))
    ensures forall j :: from <= j && (r == -1 || j < r) ==> !OccursAt(text, pat, j)
  {
    if from + |pat| > |text| then -1
    else if text[from..from + |pat|] == pat then from
    else IndexOfFrom(text, pat, from + 1)
  }

  /** `text.indexOf(pat)`: the first position where `pat` occurs, or -1. */
  function IndexOf(text: string, pat: string): (r: int)
    ensures r == -1 || 0 <= r <= |text| - |pat|
    ensures r >= 0 <==> Includes(text, pat)
    ensures r >= 0 ==> OccursAt(text, pat, r)
    ensures forall j :: 0 <= j && (r == -1 || j < r) ==> !OccursAt(text, pat, j)
  {
    IndexOfFrom(text, pat, 0)
  }

  /** `s.split(sep)` for a one-character separator: the pieces between
      separators, including empty ones at either end. */
  function Split(s: string, sep: char): (parts: seq<string>)
    ensures |parts| >= 1
    ensures forall k :: 0 <= k < |parts| ==> sep !in parts[k]
    decreases |s|
  {
    if s == [] then [""]
    else
      var rest := Split(s[1..], sep);
      if s[0] == sep then [""] + rest
      else [[s[0]] + rest[0]] + rest[1..]
  }

  /** `parts.join(sep)`. */
  function Join(parts: seq<string>, sep: char): string
    requires |parts| >= 1
  {
    if |parts| == 1 then parts[0] else parts[0] + [sep] + Join(parts[1..], sep)
  }

  /** Splitting loses nothing: joining the pieces gives back the string. */
  lemma {:induction false} JoinSplit(s: string, sep: char)
    ensures Join(Split(s, sep), sep) == s
    decreases |s|
  {
    if s != [] {
      var rest := Split(s[1..], sep);
      JoinSplit(s[1..], sep);
      if s[0] == sep {
        assert Split(s, sep) == [""] + rest;
        assert ([""] + rest)[1..] == rest;
        assert s == [s[0]] + s[1..];
      } else if |rest| == 1 {
        assert Split(s, sep) == [[s[0]] + rest[0]];
        assert s == [s[0]] + s[1..];
      } else {
        var parts := Split(s, sep);
        assert parts == [[s[0]] + rest[0]] + rest[1..];
        assert parts[1..] == rest[1..];
        calc {
          Join(parts, sep);
          ([s[0]] + rest[0]) + [sep] + Join(rest[1..], sep);
          [s[0]] + (rest[0] + [sep] + Join(rest[1..], sep));
          [s[0]] + Join(rest, sep);
          s;
        }
      }
    }
  }

  /** A string without the separator splits into itself alone. */
  lemma {:induction false} SplitWithoutSeparator(s: string, sep: char)
    requires sep !in s
    ensures Split(s, sep) == [s]
    decreases |s|
  {
    if s != [] {
      assert sep !in s[1..] by { assert forall k :: 0 <= k < |s[1..]| ==> s[1..][k] == s[k + 1]; }
      SplitWithoutSeparator(s[1..], sep);
      assert s == [s[0]] + s[1..];
    }
  }

  /** Splitting a separator-free head followed by the separator. */
  lemma {:induction false} SplitAfterHead(a: string, sep: char, b: string)
    requires sep !in a
    ensures Split(a + [sep] + b, sep) == [a] + Split(b, sep)
    decreases |a|
  {
    var s := a + [sep] + b;
    if a == [] {
      assert s == [sep] + b;
      assert s[1..] == b;
    } else {
      assert s[1..] == a[1..] + [sep] + b;
      assert sep !in a[1..] by { assert forall k :: 0 <= k < |a[1..]| ==> a[1..][k] == a[k + 1]; }
      SplitAfterHead(a[1..], sep, b);
      var rest := Split(s[1..], sep);
      assert rest == [a[1..]] + Split(b, sep);
      assert s[0] == a[0] && s[0] != sep;
      assert [a[0]] + a[1..] == a;
    }
  }

  /** Joining separator-free pieces and splitting again gives the pieces back. */
  lemma {:induction false} SplitJoin(parts: seq<string>, sep: char)
    requires |parts| >= 1
    requires forall k :: 0 <= k < |parts| ==> sep !in parts[k]
    ensures Split(Join(parts, sep), sep) == parts
    decreases |parts|
  {
    if |parts| == 1 {
      SplitWithoutSeparator(parts[0], sep);
    } else {
      SplitJoin(parts[1..], sep);
      SplitAfterHead(parts[0], sep, Join(parts[1..], sep));
      assert [parts[0]] + parts[1..] == parts;
    }
  }

  /** A joined string ends with its last piece. */
  lemma {:induction false} JoinEndsWithLast(parts: seq<string>, sep: char)
    requires |parts| >= 1
    ensures EndsWith(Join(parts, sep), parts[|parts| - 1])
    decreases |parts|
  {
    if |parts| > 1 {
      JoinEndsWithLast(parts[1..], sep);
      var tail := Join(parts[1..], sep);
      var last := parts[|parts| - 1];
      var s := parts[0] + [sep] + tail;
      assert s[|s| - |tail|..] == tail;
      assert s[|s| - |last|..] == tail[|tail| - |last|..];
    }
  }
}

=== FILE: wrappers.dfy ===
/** Optional values: a JSON field that may be missing, an HTML attribute that may be absent. */
module Wrappers {

  datatype Option<+T> = None | Some(value: T)
}
